=== FILE: README.md ===
# redTopp network graph and MICMAC loader, in Dafny

This project models the data kernel of redTopp, a React application with a
network graph view and a loader for a MICMAC structural-analysis workbook.

- **The MICMAC loader** (`src/utils/micmacLoader.ts`):
  - reads the variable names from the header row of the first sheet;
  - reads the correlation matrix from the rows below it;
  - turns both into graph data. Each variable becomes a node `var_i` with a
    type, an influence (row sum) and a dependence (column sum). Each
    off-diagonal correlation of at least 2 becomes a directed link carrying
    its value.
- **The graph view** (`src/components/NetworkGraph.tsx`):
  - builds the directed 0/1 adjacency matrix from the nodes and links;
  - colours a node by its type;
  - gives a node without coordinates default ones.

Modules:

- `Options` (`option.dfy`): the `Option` type.
- `Network` (`network.dfy`): the records `Node`, `Link` and `AdjacencyMatrix`.
- `JsString` (`jsstring.dfy`): the JavaScript built-ins the loader relies on.
  These are `String(n)`, `trim`, `toLowerCase`, `includes` and `parseInt`,
  over `seq<char>`.
- `NetworkGraph` (`network_graph.dfy`): the graph view's kernel.
  - `GenerateAdjacencyMatrix` fills an `array2` link by link. It is proved
    equal to `AdjacencyOf`, the matrix with 1 exactly where a link resolves.
- `MicmacLoader` (`micmac_loader.dfy`): the loader. Each loop of the source is
  a method proved equal to a specification function.
  - The sheet: `ReadVariables`, `ReadRow` and `ParseSheet` against
    `Variables` and `CorrelationMatrix`.
  - The links: `GenerateLinks` and `PushRowLinks` against `ThresholdLinks`.
  - The dependence: `CalculateDependence` against `ColumnSum`.
- `MicmacAdjacency` (`micmac_adjacency.dfy`): what the graph view would show
  if the loaded data were passed to it (src/pages/Index.tsx mounts the view
  without props, so no file shown here makes that connection).

The spreadsheet reader yields rows of cells. A cell is `Empty` (a hole,
`undefined`), `Num`, `Text` or `Bool`. A row that is `undefined` is `None`.

For `[[0,3,1],[3,0,0],[1,0,0]]` the loader emits two directed links,
`var_0 -> var_1` and `var_1 -> var_0`, not one undirected edge; see
`MicmacLoader.ThresholdExample`.

## Model

| member | source | states |
|---|---|---|
| NetworkGraph.FindIndex | src/components/NetworkGraph.tsx:43-44 | `findIndex`: -1 exactly when no node has the id, otherwise the first node with it |
| NetworkGraph.FindIndexOwnId | src/components/NetworkGraph.tsx:43-44 | with unique ids, looking up a node's own id finds that node |
| NetworkGraph.AdjacencyOf | src/components/NetworkGraph.tsx:36-54 | the matrix is n-by-n over the node order, its entries are 0 or 1, and `nodeNames` are the node names in order |
| NetworkGraph.SameCellsSameMatrix | src/components/NetworkGraph.tsx:36-54 | two node/link inputs with the same names and the same resolved links give the same matrix |
| NetworkGraph.GenerateAdjacencyMatrix | src/components/NetworkGraph.tsx:36-54 | filling a zero `array2` link by link yields exactly `AdjacencyOf`: cell (s, t) is 1 iff some link's source resolves to s and its target to t |
| NetworkGraph.CellIffLink | src/components/NetworkGraph.tsx:42-50 | with unique ids, cell (i, j) is 1 iff a link from node i's id to node j's id is supplied |
| NetworkGraph.UnknownLinkIgnored | src/components/NetworkGraph.tsx:46 | a link with an unknown source or target leaves the matrix unchanged |
| NetworkGraph.SameLinksSameMatrix | src/components/NetworkGraph.tsx:42-51 | the matrix depends only on the set of links: order and repetition do not matter |
| NetworkGraph.LoneLinkDirected | src/components/NetworkGraph.tsx:47-49 | directed semantics: one link sets its own cell and leaves the mirrored cell 0 |
| NetworkGraph.NodeColor | src/components/NetworkGraph.tsx:69-76 | blue iff server, green iff workstation, red iff router, gray iff any other or no type |
| NetworkGraph.ProcessNodes | src/components/NetworkGraph.tsx:63-67 | same length; every field except x/y kept; a present x/y is kept, an absent one becomes the default for its position |
| NetworkGraph.ProcessNodesIdempotent | src/components/NetworkGraph.tsx:63-67 | processing processed nodes changes nothing |
| NetworkGraph.ProcessNodesKeepsMatrix | src/components/NetworkGraph.tsx:63-67 | processing would not change the adjacency matrix (the view builds it from the raw nodes) |
| NetworkGraph.FindIndexSameIds | src/components/NetworkGraph.tsx:43-44 | `findIndex` looks only at ids: node lists with the same ids give the same index |
| JsString.TrimStart | src/utils/micmacLoader.ts:30 | the result is a suffix of the input that does not start with white space |
| JsString.TrimStartRemovesWhiteSpace | src/utils/micmacLoader.ts:30 | every character removed from the start is white space |
| JsString.TrimEnd | src/utils/micmacLoader.ts:30 | the result is a prefix of the input that does not end with white space |
| JsString.TrimEndRemovesWhiteSpace | src/utils/micmacLoader.ts:30 | every character removed from the end is white space |
| JsString.Trim | src/utils/micmacLoader.ts:30 | `trim`: no longer than the input, and the result neither starts nor ends with white space |
| JsString.TrimIsStartThenEnd | src/utils/micmacLoader.ts:30 | `trim` is removing the leading white space, then the trailing white space; so the result is the piece of the input between them |
| JsString.TrimOfTrimmed | src/utils/micmacLoader.ts:30 | a string without white space at either end is its own trim |
| JsString.LowerChar | src/utils/micmacLoader.ts:110 | capitals A-Z and the Latin-1 capitals (0xC0-0xDE except 0xD7, e.g. Í, Ó) move up by 32 to their lower case; every other character is kept |
| JsString.TrimIdempotent | src/utils/micmacLoader.ts:30 | trimming a trimmed name changes nothing |
| JsString.ToLower | src/utils/micmacLoader.ts:110 | `toLowerCase`: same length, each character lowered on its own |
| JsString.Contains | src/utils/micmacLoader.ts:112-114 | `includes`: the empty string is included in every string, and an included string is no longer than the one that includes it |
| JsString.ContainsIffOccurs | src/utils/micmacLoader.ts:112-114 | `includes` holds iff the keyword occurs at some offset |
| JsString.NatToString | src/utils/micmacLoader.ts:74 | `String(n)`: the canonical decimal digits of n, a nonempty run of digits with no leading zero unless n is 0 |
| JsString.IntToString | src/utils/micmacLoader.ts:30 | `String(n)` of an integer: the digits of its magnitude, after `-` when negative |
| JsString.ParseInt | src/utils/micmacLoader.ts:42 | `parseInt` with no radix: blank text is NaN, text whose first non-blank character is a lower-case letter is NaN, and text whose first non-blank character is a digit 1-9 is a number |
| JsString.LeadingDigits | src/utils/micmacLoader.ts:42 | the longest prefix made of digits in the radix, followed by a non-digit or the end |
| JsString.DigitValue | src/utils/micmacLoader.ts:42 | a digit's value is below its radix |
| JsString.DecimalRoundTrip | src/utils/micmacLoader.ts:74 | reading back the decimal text of n gives n |
| JsString.NatToStringInjective | src/utils/micmacLoader.ts:74 | distinct numbers have distinct decimal texts |
| JsString.ParseIntOfIntToString | src/utils/micmacLoader.ts:42 | `parseInt(String(n)) == n` for every integer n |
| JsString.ParseIntOfDigits | src/utils/micmacLoader.ts:42 | `parseInt` of a run of decimal digits is its decimal value |
| JsString.ParseIntOfNegatedDigits | src/utils/micmacLoader.ts:42 | `parseInt` of `-` then a run of decimal digits is minus its decimal value |
| JsString.LeadingDigitsAll | src/utils/micmacLoader.ts:42 | a string made only of decimal digits is its own leading digit run |
| MicmacLoader.Truthy | src/utils/micmacLoader.ts:29 | JavaScript truthiness of a header cell (`if (value)`): a cell is falsy exactly when it is `undefined`, `0`, `""` or `false` |
| MicmacLoader.CellString | src/utils/micmacLoader.ts:30 | `String(value)`: a text cell is its own text; any other cell gives a nonempty text with no white space at either end (so, by `TrimOfTrimmed`, `trim` keeps it whole) |
| MicmacLoader.CellNumber | src/utils/micmacLoader.ts:42 | the number a data cell reads as: a number cell as it is; any other cell `parseInt` of its `String`, with NaN read as 0 (stated by `NonNumericCellIsZero` and `NumericTextCell`) |
| MicmacLoader.NonNumericCellIsZero | src/utils/micmacLoader.ts:42 | `undefined`, `true` and `false` cells read as 0 (`parseInt` gives NaN, then `\|\| 0`) |
| MicmacLoader.NumericTextCell | src/utils/micmacLoader.ts:42 | a cell holding the text of a number reads as that number |
| MicmacLoader.ParseIntNoDigit | src/utils/micmacLoader.ts:42 | text starting with a lower-case letter parses to NaN |
| MicmacLoader.HeaderNames | src/utils/micmacLoader.ts:26-33 | at most one name per header cell after column 0 |
| MicmacLoader.HeaderNamesTrimmed | src/utils/micmacLoader.ts:30 | every variable name comes out trimmed |
| MicmacLoader.HeaderNamesAllTruthy | src/utils/micmacLoader.ts:28-32 | when every header cell after column 0 is truthy there is one name per cell |
| MicmacLoader.HeaderNamesAllTruthyAt | src/utils/micmacLoader.ts:28-32 | ... and name k is the trimmed text of column k + 1 |
| MicmacLoader.HeaderNamesIgnoreColumnZero | src/utils/micmacLoader.ts:28 | column 0 of the header is never read |
| MicmacLoader.ReadVariables | src/utils/micmacLoader.ts:26-33 | the header loop yields exactly `Variables(grid)` (no names when row 0 is absent) |
| MicmacLoader.RowPrefix | src/utils/micmacLoader.ts:40-43 | one number per column read, from column 1 on |
| MicmacLoader.RowPrefixAt | src/utils/micmacLoader.ts:40-43 | number k of a row is the number read from column k + 1 |
| MicmacLoader.DataRow | src/utils/micmacLoader.ts:38-44 | a row has at most one number per variable; an absent row has none |
| MicmacLoader.ReadRow | src/utils/micmacLoader.ts:38-44 | the inner loop yields exactly `DataRow` |
| MicmacLoader.ParsedRows | src/utils/micmacLoader.ts:36-48 | at most one row per sheet row read, each nonempty and no wider than the variable count |
| MicmacLoader.ReadRows | src/utils/micmacLoader.ts:36-48 | the row loop yields exactly `ParsedRows` up to the bound `i < rows && i <= variables` |
| MicmacLoader.CorrelationMatrix | src/utils/micmacLoader.ts:36-48 | at most one row per variable, each row nonempty with at most one column per variable |
| MicmacLoader.ParseSheet | src/utils/micmacLoader.ts:25-48 | the header and row loops yield exactly `Variables` and `CorrelationMatrix` |
| MicmacLoader.SquareSheet | src/utils/micmacLoader.ts:36-48 | a sheet with n names and n full rows gives the n-by-n matrix of its cells' numbers |
| MicmacLoader.FullRows | src/utils/micmacLoader.ts:37-47 | full rows are read one for one, each the numbers of its first n cells after the label |
| MicmacLoader.DroppedRowShiftsUp | src/utils/micmacLoader.ts:45-47 | an absent row is dropped and the next row moves up into its place |
| MicmacLoader.NodeType | src/utils/micmacLoader.ts:108-119 | one of server, router, workstation; server iff a server keyword occurs in the lowered name; router iff no server keyword and a router keyword occurs |
| MicmacLoader.ServerKeywordWins | src/utils/micmacLoader.ts:112-115 | a name with both a server and a router keyword is a server |
| MicmacLoader.Influence | src/utils/micmacLoader.ts:121-125 | 0 for an index past the last row; a row of non-negative cells has non-negative influence |
| MicmacLoader.SumNonNegative | src/utils/micmacLoader.ts:124 | the sum of non-negative cells is non-negative |
| MicmacLoader.CalculateDependence | src/utils/micmacLoader.ts:127-135 | the accumulator loop yields `ColumnSum`, skipping rows too short to have the column |
| MicmacLoader.InfluenceDependenceBalance | src/utils/micmacLoader.ts:121-135 | summed over all rows, influence equals dependence summed over all columns |
| MicmacLoader.SameInfluence | src/utils/micmacLoader.ts:121-125 | the influence of a row does not depend on rows after it |
| MicmacLoader.DependenceAddRow | src/utils/micmacLoader.ts:130-134 | a new row adds its cells to the column sums |
| MicmacLoader.PaddedSum | src/utils/micmacLoader.ts:124 | a row's sum is the sum of its columns padded with zeros |
| MicmacLoader.PaddedPrefixAgree | src/utils/micmacLoader.ts:124 | padded column sums of a prefix agree with those of the whole row |
| MicmacLoader.VarId | src/utils/micmacLoader.ts:74 | the node id `var_${index}` (its shape is stated by `VarIdShape`) |
| MicmacLoader.VarIdShape | src/utils/micmacLoader.ts:74 | an id is `var_` followed by the canonical decimal digits of the index, with no leading zero unless the index is 0 |
| MicmacLoader.VarIdInjective | src/utils/micmacLoader.ts:74 | distinct variables get distinct `var_i` ids |
| MicmacLoader.LinksOfConcat | src/utils/micmacLoader.ts:85-98 | the links of two runs of cells are the links of the first, then those of the second |
| MicmacLoader.GenerateLinks | src/utils/micmacLoader.ts:85-98 | the nested loops yield exactly `ThresholdLinks` |
| MicmacLoader.PushRowLinks | src/utils/micmacLoader.ts:89-97 | the inner loop appends exactly the links of the strong cells of row i to the links so far |
| MicmacLoader.LinksOfAppend | src/utils/micmacLoader.ts:91 | pushing a cell pushes its link |
| MicmacLoader.RowEntriesIff | src/utils/micmacLoader.ts:89-90 | a cell is a strong entry of its row iff it is off the diagonal and at least 2 |
| MicmacLoader.StrongEntriesIff | src/utils/micmacLoader.ts:88-90 | the same over all rows |
| MicmacLoader.LinkEmittedIff | src/utils/micmacLoader.ts:86-98 | `var_i -> var_j` with value v is emitted iff i != j, cell (i, j) exists, is at least 2 and equals v |
| MicmacLoader.NoSelfLoops | src/utils/micmacLoader.ts:90 | no link joins a variable to itself |
| MicmacLoader.SymmetricPairBothDirections | src/utils/micmacLoader.ts:88-98 | a symmetric strong pair gives a link in each direction |
| MicmacLoader.StrongEntriesOrdered | src/utils/micmacLoader.ts:88-89 | links come out in row-major order of their cells |
| MicmacLoader.RowEntriesOrdered | src/utils/micmacLoader.ts:89 | within a row, links come out left to right |
| MicmacLoader.ThresholdExample | src/utils/micmacLoader.ts:84-98 | `[[0,3,1],[3,0,0],[1,0,0]]` gives exactly `var_0 -> var_1` and `var_1 -> var_0` with value 3 |
| MicmacLoader.ThresholdExampleEntries | src/utils/micmacLoader.ts:88-90 | the strong cells of that matrix are (0, 1) and (1, 0), the cell valued 1 is below the threshold |
| MicmacLoader.MicmacNodes | src/utils/micmacLoader.ts:69-82 | one node per variable, in order: id `var_i`, the variable's name, its type, influence and dependence, and the layout position |
| MicmacLoader.GenerateMicmacData | src/utils/micmacLoader.ts:67-106 | yields the nodes, the threshold links, and the variables and matrix unchanged |
| MicmacLoader.LoadFromSheet | src/utils/micmacLoader.ts:25-50 | the sheet branch yields the data of the parsed variables and matrix |
| MicmacAdjacency.MicmacIdsUnique | src/utils/micmacLoader.ts:74 | the loaded nodes have pairwise distinct ids |
| MicmacAdjacency.LinkTargetsVariables | src/utils/micmacLoader.ts:91-95 | every loaded link joins two `var_i` ids and carries a value |
| MicmacAdjacency.MicmacAdjacencyCell | src/components/NetworkGraph.tsx:42-50 | for the loaded data, cell (i, j) is 1 iff i != j and correlation (i, j) exists and is at least 2 |
| MicmacAdjacency.SymmetricMatrixSymmetricAdjacency | src/components/NetworkGraph.tsx:47-49 | a symmetric correlation pair gives a symmetric pair of cells |
| MicmacAdjacency.MicmacColorsNeverGray | src/components/NetworkGraph.tsx:69-76 | a loaded node is never gray; blue, red and green follow server, router and workstation |
| MicmacAdjacency.MicmacNodesKeepPositions | src/components/NetworkGraph.tsx:63-67 | loaded nodes have coordinates, so the view's defaults never replace them |

## Left out

- The fetch of the workbook, the XLSX decoding, `async` and the `try`/`catch` fallback to
  the bundled static data (src/utils/micmacLoader.ts:12-24, 49-65) are I/O.
  `MicmacLoader.LoadFromSheet` starts from the decoded rows. `GenerateMicmacData`
  covers both branches, because the fallback calls it too.
- The bundled static variables and matrix (`../data/micmacData`) are not part of this model.
- Numbers are integers. Spreadsheet cells holding fractions, and floating-point sums of
  them, are not modelled.
- `MicmacLoader.MicmacNodes`: the circular position (cosine and sine of the angle, and the
  radius) is a `layout` parameter, because it is floating-point trigonometry.
- `NetworkGraph.ProcessNodes`: the default coordinates `width / (n + 1) * (index + 1)` and
  `height / 2` are parameters (`defaultX`, `defaultY`), because they are floating-point
  formulas over the component's configuration.
- `JsString.LowerChar`: maps only ASCII and Latin-1 capitals; any other cased character
  (for example 'Σ', which JavaScript lowers to 'σ') is kept.
- `JsString.ToLower`: lowers only ASCII and Latin-1 capitals. It does no Unicode case
  mapping beyond them, and none of the mappings that change the length: JavaScript
  lowers 'İ' (U+0130) to the two code units "i\u0307", the model keeps it.
- `JsString.ParseInt`: exact over unbounded integers. JavaScript's `parseInt` rounds past
  2^53.
- `JsString.NatToString`: always writes plain digits. JavaScript switches to exponent
  notation at 10^21.
- `MicmacLoader.CellNumber`: a number cell holding NaN is not representable (`Num` holds
  an integer). In the source such a cell is kept as NaN, because a number cell never
  reaches `|| 0`. It then yields no link, since `NaN >= 2` is false. It also makes the
  influence of its row and the dependence of its column NaN.
- `MicmacLoader.CellNumber`: has no `ensures` of its own. Its behaviour is stated by
  `NonNumericCellIsZero` and `NumericTextCell`. An `ensures` on it drags the `parseInt`
  chain into every proof that reads a cell, and those proofs then exceed the verifier's
  resource limit.
- `MicmacLoader.VarId`: has no `ensures` of its own, for the same reason with the proofs
  that build links. Its shape is stated by `VarIdShape`, and its injectivity by
  `VarIdInjective`.
- Rendering (SVG links, nodes, labels, the matrix table, the view-mode toggle) and the
  React state.
- src/pages/Index.tsx, which only mounts the component.
- The D3 fixed positions `fx`/`fy` are carried but never used.

=== FILE: jsstring.dfy ===
/** The JavaScript built-ins the MICMAC loader relies on, over `seq<char>`:
    `String(n)` for integers, `String.prototype.trim`, `toLowerCase` (Latin-1 only),
    `includes` and the global `parseInt` with no radix. */
module JsString {

  import opened Options

  /** ECMAScript WhiteSpace and LineTerminator code points (what `trim` and
      `parseInt` skip). */
  predicate IsWhiteSpace(c: char) {
    var k := c as int;
    k == 0x09 || k == 0x0A || k == 0x0B || k == 0x0C || k == 0x0D || k == 0x20 ||
    k == 0xA0 || k == 0x1680 || (0x2000 <= k <= 0x200A) || k == 0x2028 || k == 0x2029 ||
    k == 0x202F || k == 0x205F || k == 0x3000 || k == 0xFEFF
  }

  /** `s` with its leading white space removed. */
  function TrimStart(s: string): (r: string)
    ensures |r| <= |s| && r == s[|s| - |r|..]
    ensures r == [] || !IsWhiteSpace(r[0])
  {
    if s != [] && IsWhiteSpace(s[0]) then TrimStart(s[1..]) else s
  }

  /** Only white space is removed from the start. */
  lemma {:induction false} TrimStartRemovesWhiteSpace(s: string, k: nat)
    requires k < |s| - |TrimStart(s)|
    ensures IsWhiteSpace(s[k])
  {
    if k > 0 {
      TrimStartRemovesWhiteSpace(s[1..], k - 1);
    }
  }

  /** `s` with its trailing white space removed. */
  function TrimEnd(s: string): (r: string)
    ensures |r| <= |s| && r == s[..|r|]
    ensures r == [] || !IsWhiteSpace(r[|r| - 1])
  {
    if s != [] && IsWhiteSpace(s[|s| - 1]) then TrimEnd(s[..|s| - 1]) else s
  }

  /** Only white space is removed from the end. */
  lemma {:induction false} TrimEndRemovesWhiteSpace(s: string, k: nat)
    requires |TrimEnd(s)| <= k < |s|
    ensures IsWhiteSpace(s[k])
  {
    if k < |s| - 1 {
      TrimEndRemovesWhiteSpace(s[..|s| - 1], k);
    }
  }

  /** `String.prototype.trim`: drop white space from both ends. What is left
      neither starts nor ends with white space. */
  function Trim(s: string): (r: string)
    ensures |r| <= |s|
    ensures r == [] || (!IsWhiteSpace(r[0]) && !IsWhiteSpace(r[|r| - 1]))
  {
    if s != [] && IsWhiteSpace(s[0]) then Trim(s[1..])
    else if s != [] && IsWhiteSpace(s[|s| - 1]) then Trim(s[..|s| - 1])
    else s
  }

  /** Trimming both ends at once is trimming the start, then the end: so the
      result is the piece of `s` between its leading and its trailing white space. */
  lemma {:induction false} TrimIsStartThenEnd(s: string)
    ensures Trim(s) == TrimEnd(TrimStart(s))
    decreases |s|
  {
    if s != [] && IsWhiteSpace(s[0]) {
      TrimIsStartThenEnd(s[1..]);
      assert TrimStart(s) == TrimStart(s[1..]);
    } else if s != [] && IsWhiteSpace(s[|s| - 1]) {
      var init := s[..|s| - 1];
      TrimIsStartThenEnd(init);
      TrimStartOfNonSpace(init);
      TrimStartOfNonSpace(s);
      assert TrimEnd(s) == TrimEnd(init);
    } else if s != [] {
      TrimStartOfNonSpace(s);
    }
  }

  /** A string that neither starts nor ends with white space is its own trim. */
  lemma TrimOfTrimmed(s: string)
    requires s == [] || (!IsWhiteSpace(s[0]) && !IsWhiteSpace(s[|s| - 1]))
    ensures Trim(s) == s
  {
  }

  /** Trimming twice is trimming once. */
  lemma TrimIdempotent(s: string)
    ensures Trim(Trim(s)) == Trim(s)
  {
    TrimOfTrimmed(Trim(s));
  }

  /** `toLowerCase` on the ASCII and Latin-1 letters; other characters are kept. */
  function LowerChar(c: char): (r: char)
    ensures 'A' <= c <= 'Z' ==> r as int == c as int + 32
    ensures 0xC0 <= c as int <= 0xDE && c as int != 0xD7 ==> r as int == c as int + 32
    ensures !('A' <= c <= 'Z') && !(0xC0 <= c as int <= 0xDE && c as int != 0xD7) ==> r == c
  {
    if 'A' <= c <= 'Z' || (0xC0 <= c as int <= 0xDE && c as int != 0xD7)
    then (c as int + 32) as char
    else c
  }

  function ToLower(s: string): (r: string)
    ensures |r| == |s|
    ensures forall k :: 0 <= k < |s| ==> r[k] == LowerChar(s[k])
  {
    seq(|s|, k requires 0 <= k < |s| => LowerChar(s[k]))
  }

  predicate StartsWith(s: string, prefix: string) {
    |prefix| <= |s| && s[..|prefix|] == prefix
  }

  /** `String.prototype.includes`. */
  predicate Contains(s: string, sub: string)
    ensures sub == [] ==> Contains(s, sub)
    ensures Contains(s, sub) ==> |sub| <= |s|
    decreases |s|
  {
    StartsWith(s, sub) || (s != [] && Contains(s[1..], sub))
  }

  /** `includes` holds exactly when `sub` occurs at some offset of `s`. */
  lemma {:induction false} ContainsIffOccurs(s: string, sub: string)
    ensures Contains(s, sub) <==> exists k :: 0 <= k <= |s| - |sub| && StartsWith(s[k..], sub)
    decreases |s|
  {
    assert s[0..] == s;
    if s != [] {
      ContainsIffOccurs(s[1..], sub);
      if Contains(s[1..], sub) {
        var k :| 0 <= k <= |s[1..]| - |sub| && StartsWith(s[1..][k..], sub);
        assert s[1..][k..] == s[k + 1..];
      }
      if k :| 0 <= k <= |s| - |sub| && StartsWith(s[k..], sub) {
        if k > 0 {
          assert s[1..][k - 1..] == s[k..];
          assert StartsWith(s[1..][k - 1..], sub);
        }
      }
    }
  }

  function DigitChar(d: nat): (c: char)
    requires d < 10
    ensures '0' <= c <= '9' && c as int - '0' as int == d
  {
    ('0' as int + d) as char
  }

  /** `String(n)` for a non-negative integer, always in plain digits (the
      exponent notation JavaScript uses from 1e21 on is not modelled). */
  function NatToString(n: nat): (s: string)
    ensures s != []
    ensures forall k :: 0 <= k < |s| ==> '0' <= s[k] <= '9'
    ensures s[0] == '0' ==> n == 0
  {
    if n < 10 then [DigitChar(n)] else NatToString(n / 10) + [DigitChar(n % 10)]
  }

  /** `String(n)` for an integer. */
  function IntToString(n: int): (s: string)
    ensures s != []
    ensures n >= 0 ==> s == NatToString(n)
    ensures n < 0 ==> s[0] == '-' && s[1..] == NatToString(-n)
  {
    if n < 0 then "-" + NatToString(-n) else NatToString(n)
  }

  /** The value of a digit character in `radix` (10 or 16), if it is one. */
  function DigitValue(c: char, radix: nat): (d: Option<nat>)
    requires radix == 10 || radix == 16
    ensures d.Some? ==> d.value < radix
  {
    if '0' <= c <= '9' then Some(c as int - '0' as int)
    else if radix == 16 && 'a' <= c <= 'f' then Some(c as int - 'a' as int + 10)
    else if radix == 16 && 'A' <= c <= 'F' then Some(c as int - 'A' as int + 10)
    else None
  }

  /** The longest prefix of `s` made of digits in `radix`. */
  function LeadingDigits(s: string, radix: nat): (r: string)
    requires radix == 10 || radix == 16
    ensures |r| <= |s| && r == s[..|r|]
    ensures forall k :: 0 <= k < |r| ==> DigitValue(r[k], radix).Some?
    ensures |r| < |s| ==> DigitValue(s[|r|], radix).None?
  {
    if s != [] && DigitValue(s[0], radix).Some? then [s[0]] + LeadingDigits(s[1..], radix) else []
  }

  /** The number that the digit string `ds` denotes in `radix`, most significant first. */
  function DigitsValue(ds: string, radix: nat): (v: nat)
    requires radix == 10 || radix == 16
    requires forall k :: 0 <= k < |ds| ==> DigitValue(ds[k], radix).Some?
  {
    if ds == [] then 0
    else DigitsValue(ds[..|ds| - 1], radix) * radix + DigitValue(ds[|ds| - 1], radix).value
  }

  /** Reading back the decimal text of `n` gives `n`. */
  lemma {:induction false} DecimalRoundTrip(n: nat)
    ensures DigitsValue(NatToString(n), 10) == n
  {
    if n >= 10 {
      DecimalRoundTrip(n / 10);
      var s := NatToString(n);
      assert s[..|s| - 1] == NatToString(n / 10);
    }
  }

  /** Distinct numbers have distinct decimal texts. */
  lemma NatToStringInjective(a: nat, b: nat)
    requires NatToString(a) == NatToString(b)
    ensures a == b
  {
    DecimalRoundTrip(a);
    DecimalRoundTrip(b);
  }

  /** Global `parseInt(s)` with the radix left out: skip leading white space,
      read an optional sign, switch to radix 16 on a `0x`/`0X` prefix, then read
      the longest run of digits. `None` is `NaN` (no digit at all). The result
      is exact (JavaScript rounds beyond 2^53). */
  function ParseInt(s: string): (r: Option<int>)
    ensures TrimStart(s) == [] ==> r.None?
    ensures TrimStart(s) != [] && 'a' <= TrimStart(s)[0] <= 'z' ==> r.None?
    ensures TrimStart(s) != [] && '1' <= TrimStart(s)[0] <= '9' ==> r.Some?
  {
    ParseSigned(TrimStart(s))
  }

  /** `parseInt` after the leading white space: the optional sign. */
  function ParseSigned(t: string): (r: Option<int>)
  {
    if t != [] && (t[0] == '-' || t[0] == '+') then ParseUnsigned(t[1..], t[0] == '-')
    else ParseUnsigned(t, false)
  }

  /** `parseInt` after the sign: the radix prefix and the digits. */
  function ParseUnsigned(u: string, negative: bool): (r: Option<int>)
  {
    if |u| >= 2 && u[0] == '0' && (u[1] == 'x' || u[1] == 'X')
    then ParseDigits(u[2..], 16, negative)
    else ParseDigits(u, 10, negative)
  }

  /** The signed value of the leading digits of `u` in `radix`; `None` when there are none. */
  function ParseDigits(u: string, radix: nat, negative: bool): (r: Option<int>)
    requires radix == 10 || radix == 16
  {
    var ds := LeadingDigits(u, radix);
    if ds == [] then None
    else var v: int := DigitsValue(ds, radix); Some(if negative then -v else v)
  }

  /** `parseInt` reads back any decimal text that `String(n)` writes. */
  lemma ParseIntOfIntToString(n: int)
    ensures ParseInt(IntToString(n)) == Some(n)
  {
    var m: nat := if n < 0 then -n else n;
    var s := NatToString(m);
    DecimalRoundTrip(m);
    LeadingDigitsAll(s);
    if n < 0 {
      assert IntToString(n) == "-" + s;
      ParseIntOfNegatedDigits(s);
    } else {
      ParseIntOfDigits(s);
    }
  }

  lemma ParseIntOfDigits(s: string)
    requires s != [] && LeadingDigits(s, 10) == s
    ensures ParseInt(s) == Some(DigitsValue(s, 10))
  {
    TrimStartOfNonSpace(s);
    assert ParseSigned(s) == ParseUnsigned(s, false);
    ParseUnsignedDecimal(s, false);
    ParseDigitsAll(s, false);
  }

  lemma ParseIntOfNegatedDigits(s: string)
    requires s != [] && LeadingDigits(s, 10) == s
    ensures ParseInt("-" + s) == Some(-(DigitsValue(s, 10) as int))
  {
    var text := "-" + s;
    TrimStartOfNonSpace(text);
    assert text[1..] == s;
    assert ParseSigned(text) == ParseUnsigned(s, true);
    ParseUnsignedDecimal(s, true);
    ParseDigitsAll(s, true);
  }

  lemma TrimStartOfNonSpace(s: string)
    requires s != [] && !IsWhiteSpace(s[0])
    ensures TrimStart(s) == s
  {
  }

  lemma ParseUnsignedDecimal(s: string, negative: bool)
    requires s != [] && LeadingDigits(s, 10) == s
    ensures ParseUnsigned(s, negative) == ParseDigits(s, 10, negative)
  {
  }

  lemma ParseDigitsAll(s: string, negative: bool)
    requires s != [] && LeadingDigits(s, 10) == s
    ensures ParseDigits(s, 10, negative)
         == Some(if negative then -(DigitsValue(s, 10) as int) else DigitsValue(s, 10))
  {
  }

  lemma {:induction false} LeadingDigitsAll(s: string)
    requires forall k :: 0 <= k < |s| ==> '0' <= s[k] <= '9'
    ensures LeadingDigits(s, 10) == s
  {
    if s != [] {
      LeadingDigitsAll(s[1..]);
    }
  }
}

=== FILE: micmac_adjacency.dfy ===
/** What the graph view would show if the data the MICMAC loader produces were
    passed to it: the loader's nodes and links fed to the adjacency matrix, the
    colouring and the coordinate defaults of src/components/NetworkGraph.tsx. */
module MicmacAdjacency {

  import opened Options
  import opened Network
  import opened NetworkGraph
  import opened MicmacLoader

  /** The loader gives every variable its own id. */
  lemma MicmacIdsUnique(variables: seq<string>, matrix: seq<seq<int>>, layout: nat -> (real, real))
    ensures UniqueIds(MicmacNodes(variables, matrix, layout))
  {
    var nodes := MicmacNodes(variables, matrix, layout);
    forall a, b | 0 <= a < b < |nodes| ensures nodes[a].id != nodes[b].id {
      if nodes[a].id == nodes[b].id {
        VarIdInjective(a, b);
      }
    }
  }

  /** Cell (i, j) of the graph view's matrix for the loaded data is 1 exactly
      when i and j differ and the correlation of i on j reaches the threshold. */
  lemma MicmacAdjacencyCell(variables: seq<string>, matrix: seq<seq<int>>, layout: nat -> (real, real), i: nat, j: nat)
    requires i < |variables| && j < |variables|
    ensures AdjacencyOf(MicmacNodes(variables, matrix, layout), ThresholdLinks(matrix)).matrix[i][j] == 1
        <==> i < |matrix| && j < |matrix[i]| && i != j && matrix[i][j] >= Threshold
  {
    var nodes := MicmacNodes(variables, matrix, layout);
    var links := ThresholdLinks(matrix);
    MicmacIdsUnique(variables, matrix, layout);
    CellIffLink(nodes, links, i, j);
    if exists l :: l in links && l.source == nodes[i].id && l.target == nodes[j].id {
      var l :| l in links && l.source == nodes[i].id && l.target == nodes[j].id;
      LinkTargetsVariables(matrix, l);
      LinkEmittedIff(matrix, i, j, l.value.value);
    }
    if i < |matrix| && j < |matrix[i]| && i != j && matrix[i][j] >= Threshold {
      LinkEmittedIff(matrix, i, j, matrix[i][j]);
    }
  }

  /** Every emitted link has the shape `var_i -> var_j` with a value. */
  lemma LinkTargetsVariables(matrix: seq<seq<int>>, l: Link)
    requires l in ThresholdLinks(matrix)
    ensures exists i: nat, j: nat :: l == Link(VarId(i), VarId(j), l.value)
    ensures l.value.Some?
  {
    var es := StrongEntries(matrix, |matrix|);
    var k :| 0 <= k < |es| && ThresholdLinks(matrix)[k] == l;
    assert l == Link(VarId(es[k].row), VarId(es[k].col), l.value);
  }

  /** A symmetric correlation matrix gives a symmetric adjacency matrix. */
  lemma SymmetricMatrixSymmetricAdjacency(variables: seq<string>, matrix: seq<seq<int>>, layout: nat -> (real, real), i: nat, j: nat)
    requires i < |variables| && j < |variables| && i < |matrix| && j < |matrix|
    requires j < |matrix[i]| && i < |matrix[j]| && matrix[i][j] == matrix[j][i]
    ensures var adjacency := AdjacencyOf(MicmacNodes(variables, matrix, layout), ThresholdLinks(matrix)).matrix;
            adjacency[i][j] == adjacency[j][i]
  {
    MicmacAdjacencyCell(variables, matrix, layout, i, j);
    MicmacAdjacencyCell(variables, matrix, layout, j, i);
  }

  /** A loaded node is never drawn gray: its colour follows its MICMAC type. */
  lemma MicmacColorsNeverGray(variables: seq<string>, matrix: seq<seq<int>>, layout: nat -> (real, real), i: nat)
    requires i < |variables|
    ensures var c := NodeColor(MicmacNodes(variables, matrix, layout)[i].nodeType);
            c != "fill-gray-500" &&
            (c == "fill-blue-500" <==> NodeType(variables[i]) == "server") &&
            (c == "fill-red-500" <==> NodeType(variables[i]) == "router") &&
            (c == "fill-green-500" <==> NodeType(variables[i]) == "workstation")
  {
  }

  /** Loaded nodes already carry coordinates, so the graph view's defaults never apply. */
  lemma MicmacNodesKeepPositions(variables: seq<string>, matrix: seq<seq<int>>, layout: nat -> (real, real),
                                 defaultX: nat -> real, defaultY: real)
    ensures ProcessNodes(MicmacNodes(variables, matrix, layout), defaultX, defaultY)
         == MicmacNodes(variables, matrix, layout)
  {
  }
}

=== FILE: micmac_loader.dfy ===
/** The MICMAC correlation-matrix loader (src/utils/micmacLoader.ts): reading the
    variable names and the correlation matrix from a sheet, and turning them into
    graph nodes (with type, influence and dependence) and threshold links. */
module MicmacLoader {

  import opened Options
  import opened Network
  import opened JsString

  // ---------------------------------------------------------------------------
  // The sheet

  /** A cell as the spreadsheet reader yields it; a hole in a row is `Empty`. */
  datatype Cell = Empty | Num(n: int) | Text(s: string) | Bool(b: bool)

  /** The rows of the first sheet; a row that is `undefined` is `None`. */
  type Grid = seq<Option<seq<Cell>>>

  /** JavaScript truthiness of a cell: only `undefined`, `0`, `""` and `false`
      are falsy. */
  predicate Truthy(c: Cell)
    ensures !Truthy(c) <==> c == Empty || c == Num(0) || c == Text("") || c == Bool(false)
  {
    match c
    case Empty => false
    case Num(n) => n != 0
    case Text(s) => s != []
    case Bool(b) => b
  }

  /** `String(value)`: a text cell is its own text; any other cell is
      written as a nonempty word or number with no white space at its ends. */
  function CellString(c: Cell): (r: string)
    ensures c.Text? ==> r == c.s
    ensures !c.Text? ==> r != [] && !IsWhiteSpace(r[0]) && !IsWhiteSpace(r[|r| - 1])
  {
    match c
    case Empty => "undefined"
    case Num(n) => IntToString(n)
    case Text(s) => s
    case Bool(b) => if b then "true" else "false"
  }

  /** The number a data cell reads as: a number cell as it is; any other cell
      through `parseInt` of its text, with NaN read as 0. */
  function CellNumber(c: Cell): int {
    if c.Num? then c.n
    else match ParseInt(CellString(c))
      case Some(v) => v
      case None => 0
  }

  /** Cells that are neither numbers nor numeric text read as 0. */
  lemma NonNumericCellIsZero(b: bool)
    ensures CellNumber(Empty) == 0 && CellNumber(Bool(b)) == 0
  {
    ParseIntNoDigit("undefined");
    ParseIntNoDigit("true");
    ParseIntNoDigit("false");
  }

  /** A number written as text reads as that number. */
  lemma NumericTextCell(n: int)
    ensures CellNumber(Text(IntToString(n))) == n
  {
    ParseIntOfIntToString(n);
  }

  lemma ParseIntNoDigit(s: string)
    requires s != [] && 'a' <= s[0] <= 'z'
    ensures ParseInt(s) == None
  {
    TrimStartOfNonSpace(s);
    assert ParseSigned(s) == ParseUnsigned(s, false);
    assert ParseUnsigned(s, false) == ParseDigits(s, 10, false);
    assert LeadingDigits(s, 10) == [];
  }

  /** The exclusive end of a loop index running from 1 while `index < len` and
      `index <= width`. */
  function Bound(len: nat, width: nat): (b: nat)
    ensures b <= len && b <= width + 1
    ensures b == len || b == width + 1
  {
    if len < width + 1 then len else width + 1
  }

  // ---------------------------------------------------------------------------
  // Header row

  /** The names read from `header[1..j]`: each truthy cell, stringified and
      trimmed, in order; column 0 is never looked at. */
  function HeaderNames(header: seq<Cell>, j: nat): (names: seq<string>)
    requires j <= |header| || j <= 1
    ensures |names| <= if j <= 1 then 0 else j - 1
  {
    if j <= 1 then []
    else
      var prev := HeaderNames(header, j - 1);
      if Truthy(header[j - 1]) then prev + [Trim(CellString(header[j - 1]))] else prev
  }

  /** Every variable name comes out trimmed. */
  lemma {:induction false} HeaderNamesTrimmed(header: seq<Cell>, j: nat, k: nat)
    requires j <= |header| || j <= 1
    requires k < |HeaderNames(header, j)|
    ensures Trim(HeaderNames(header, j)[k]) == HeaderNames(header, j)[k]
  {
    var prev := HeaderNames(header, j - 1);
    if k < |prev| {
      HeaderNamesTrimmed(header, j - 1, k);
      assert HeaderNames(header, j)[k] == prev[k];
    } else {
      var name := Trim(CellString(header[j - 1]));
      assert HeaderNames(header, j) == prev + [name];
      TrimIdempotent(CellString(header[j - 1]));
    }
  }

  /** The variable names: the header names of row 0, or none when row 0 is absent. */
  function Variables(grid: Grid): seq<string> {
    if |grid| == 0 || grid[0].None? then [] else HeaderNames(grid[0].value, |grid[0].value|)
  }

  /** When every header cell after column 0 is truthy, there is one variable per
      such cell. */
  lemma {:induction false} HeaderNamesAllTruthy(header: seq<Cell>, j: nat)
    requires 1 <= j <= |header|
    requires forall k :: 1 <= k < j ==> Truthy(header[k])
    ensures |HeaderNames(header, j)| == j - 1
  {
    if j > 1 {
      HeaderNamesAllTruthy(header, j - 1);
      assert Truthy(header[j - 1]);
    }
  }

  /** ... and variable k is the trimmed text of column k + 1, in column order. */
  lemma {:induction false} HeaderNamesAllTruthyAt(header: seq<Cell>, j: nat, k: nat)
    requires 1 <= j <= |header| && k < j - 1
    requires forall c :: 1 <= c < j ==> Truthy(header[c])
    ensures |HeaderNames(header, j)| == j - 1
    ensures HeaderNames(header, j)[k] == Trim(CellString(header[k + 1]))
  {
    HeaderNamesAllTruthy(header, j);
    HeaderNamesAllTruthy(header, j - 1);
    assert Truthy(header[j - 1]);
    if k < j - 2 {
      HeaderNamesAllTruthyAt(header, j - 1, k);
    }
  }

  /** The content of column 0 of the header row does not matter. */
  lemma {:induction false} HeaderNamesIgnoreColumnZero(header: seq<Cell>, c: Cell, j: nat)
    requires 1 <= |header| && j <= |header|
    ensures HeaderNames(header[0 := c], j) == HeaderNames(header, j)
  {
    if j > 1 {
      HeaderNamesIgnoreColumnZero(header, c, j - 1);
    }
  }

  // ---------------------------------------------------------------------------
  // Data rows

  /** The numbers read from `cells[1..j]`. */
  function RowPrefix(cells: seq<Cell>, j: nat): (row: seq<int>)
    requires j <= |cells| || j <= 1
    ensures |row| == if j <= 1 then 0 else j - 1
  {
    if j <= 1 then [] else RowPrefix(cells, j - 1) + [CellNumber(cells[j - 1])]
  }

  /** Number k of a row is the number read from column k + 1. */
  lemma {:induction false} RowPrefixAt(cells: seq<Cell>, j: nat, k: nat)
    requires j <= |cells| || j <= 1
    requires k < |RowPrefix(cells, j)|
    ensures RowPrefix(cells, j)[k] == CellNumber(cells[k + 1])
  {
    if k < j - 2 {
      RowPrefixAt(cells, j - 1, k);
    }
  }

  /** One data row: columns 1 up to `width` of the row, or nothing when the row is absent. */
  function DataRow(r: Option<seq<Cell>>, width: nat): (row: seq<int>)
    ensures |row| <= width
    ensures r.None? ==> row == []
  {
    match r
    case None => []
    case Some(cells) => RowPrefix(cells, Bound(|cells|, width))
  }

  /** The matrix read from rows `1 .. i-1`: a row that yields no number is
      dropped, so the rows after it move up. */
  function ParsedRows(grid: Grid, width: nat, i: nat): (m: seq<seq<int>>)
    requires i <= |grid| || i <= 1
    ensures |m| <= if i <= 1 then 0 else i - 1
    ensures forall k :: 0 <= k < |m| ==> 0 < |m[k]| <= width
  {
    if i <= 1 then []
    else
      var prev := ParsedRows(grid, width, i - 1);
      var row := DataRow(grid[i - 1], width);
      if |row| > 0 then prev + [row] else prev
  }

  /** The correlation matrix read from the sheet: at most one row per variable,
      at most one column per variable. */
  function CorrelationMatrix(grid: Grid): (m: seq<seq<int>>)
    ensures |m| <= |Variables(grid)|
    ensures forall k :: 0 <= k < |m| ==> 0 < |m[k]| <= |Variables(grid)|
  {
    var width := |Variables(grid)|;
    ParsedRows(grid, width, Bound(|grid|, width))
  }

  /** The header loop of `loadMicmacData`: collect the names of row 0 from column 1 on. */
  method ReadVariables(grid: Grid) returns (variables: seq<string>)
    ensures variables == Variables(grid)
  {
    variables := [];
    if |grid| > 0 && grid[0].Some? {
      var header := grid[0].value;
      var j := 1;
      while j < |header|
        invariant 1 <= j && (j <= |header| || j == 1)
        invariant variables == HeaderNames(header, j)
      {
        if Truthy(header[j]) {
          variables := variables + [Trim(CellString(header[j]))];
        }
        j := j + 1;
      }
    }
  }

  /** The inner loop of `loadMicmacData`: the numbers of columns 1 up to `width` of one row. */
  method ReadRow(r: Option<seq<Cell>>, width: nat) returns (row: seq<int>)
    ensures row == DataRow(r, width)
  {
    row := [];
    if r.Some? {
      var cells := r.value;
      var j := 1;
      while j < |cells| && j <= width
        invariant 1 <= j && (j <= |cells| || j == 1) && j <= width + 1
        invariant row == RowPrefix(cells, j)
      {
        row := row + [CellNumber(cells[j])];
        j := j + 1;
      }
      assert j <= 1 || j == Bound(|cells|, width);
    }
  }

  /** The row loop of `loadMicmacData`: rows 1 up to `width` of the sheet,
      each read by `ReadRow`, keeping the nonempty ones. */
  method ReadRows(grid: Grid, width: nat) returns (correlationMatrix: seq<seq<int>>)
    ensures correlationMatrix == ParsedRows(grid, width, Bound(|grid|, width))
  {
    correlationMatrix := [];
    ghost var n := Bound(|grid|, width);
    var i := 1;
    while i < |grid| && i <= width
      invariant 1 <= i && (i <= n || i == 1)
      invariant correlationMatrix == ParsedRows(grid, width, i)
    {
      var row := ReadRow(grid[i], width);
      ParsedRowsStep(grid, width, i + 1, row);
      if |row| > 0 {
        correlationMatrix := correlationMatrix + [row];
      }
      i := i + 1;
    }
    assert i <= 1 || i == n;
  }

  lemma ParsedRowsStep(grid: Grid, width: nat, i: nat, row: seq<int>)
    requires 2 <= i <= |grid| && row == DataRow(grid[i - 1], width)
    ensures ParsedRows(grid, width, i)
         == if |row| > 0 then ParsedRows(grid, width, i - 1) + [row] else ParsedRows(grid, width, i - 1)
  {
  }

  /** The header and row loops of `loadMicmacData`, over the sheet's rows. */
  method ParseSheet(grid: Grid) returns (variables: seq<string>, correlationMatrix: seq<seq<int>>)
    ensures variables == Variables(grid)
    ensures correlationMatrix == CorrelationMatrix(grid)
  {
    variables := ReadVariables(grid);
    correlationMatrix := ReadRows(grid, |variables|);
  }

  /** A well-formed sheet (a header with n names, then n rows of at least n
      cells after the label column) gives an n-by-n matrix of its cells. */
  lemma SquareSheet(grid: Grid)
    requires |grid| > |Variables(grid)|
    requires forall i :: 1 <= i <= |Variables(grid)| ==>
               grid[i].Some? && |grid[i].value| > |Variables(grid)|
    ensures |CorrelationMatrix(grid)| == |Variables(grid)|
    ensures forall i, j :: 0 <= i < |Variables(grid)| && 0 <= j < |Variables(grid)| ==>
              |CorrelationMatrix(grid)[i]| == |Variables(grid)| &&
              CorrelationMatrix(grid)[i][j] == CellNumber(grid[i + 1].value[j + 1])
  {
    var n := |Variables(grid)|;
    assert Bound(|grid|, n) == n + 1;
    assert CorrelationMatrix(grid) == ParsedRows(grid, n, n + 1);
    if n > 0 {
      FullRows(grid, n, n + 1);
      forall i, j | 0 <= i < n && 0 <= j < n
        ensures CorrelationMatrix(grid)[i][j] == CellNumber(grid[i + 1].value[j + 1])
      {
        RowPrefixAt(grid[i + 1].value, n + 1, j);
      }
    }
  }

  lemma {:induction false} FullRows(grid: Grid, n: nat, i: nat)
    requires 1 <= n && 1 <= i <= n + 1 && i <= |grid|
    requires forall r :: 1 <= r < i ==> grid[r].Some? && |grid[r].value| > n
    ensures |ParsedRows(grid, n, i)| == i - 1
    ensures forall r :: 0 <= r < i - 1 ==> ParsedRows(grid, n, i)[r] == RowPrefix(grid[r + 1].value, n + 1)
  {
    if i > 1 {
      FullRows(grid, n, i - 1);
      var cells := grid[i - 1].value;
      assert Bound(|cells|, n) == n + 1;
      var row := DataRow(grid[i - 1], n);
      assert row == RowPrefix(cells, n + 1);
      assert ParsedRows(grid, n, i) == ParsedRows(grid, n, i - 1) + [row];
    }
  }

  /** An absent row is dropped and the next row moves up to take its place:
      here the values of the second variable's row end up as row 0. */
  lemma DroppedRowShiftsUp()
    ensures var grid: Grid := [Some([Empty, Text("A"), Text("B")]), None, Some([Text("B"), Num(1), Num(2)])];
            Variables(grid) == ["A", "B"] && CorrelationMatrix(grid) == [[1, 2]]
  {
    var grid: Grid := [Some([Empty, Text("A"), Text("B")]), None, Some([Text("B"), Num(1), Num(2)])];
    var header := grid[0].value;
    TrimOfLetter('A');
    TrimOfLetter('B');
    assert HeaderNames(header, 1) == [];
    assert Truthy(header[1]) && CellString(header[1]) == "A";
    assert HeaderNames(header, 2) == HeaderNames(header, 1) + [Trim("A")];
    assert HeaderNames(header, 2) == ["A"];
    assert Truthy(header[2]) && CellString(header[2]) == "B";
    assert HeaderNames(header, 3) == HeaderNames(header, 2) + [Trim("B")];
    assert Variables(grid) == ["A", "B"];
    assert ParsedRows(grid, 2, 2) == [];
    var cells := grid[2].value;
    assert RowPrefix(cells, 3) == [1, 2];
    assert DataRow(grid[2], 2) == [1, 2];
    assert ParsedRows(grid, 2, 3) == [[1, 2]];
  }

  lemma TrimOfLetter(c: char)
    requires 'A' <= c <= 'Z'
    ensures Trim([c]) == [c]
  {
    assert !IsWhiteSpace(c);
    TrimOfTrimmed([c]);
  }

  // ---------------------------------------------------------------------------
  // Node classification and statistics

  const ServerKeywords: seq<string> := ["planificación", "estratégica", "políticas"]
  const RouterKeywords: seq<string> := ["información", "digital", "herramientas"]

  /** `s` includes one of `keywords`. */
  predicate MentionsAny(s: string, keywords: seq<string>) {
    exists k :: 0 <= k < |keywords| && Contains(s, keywords[k])
  }

  lemma MentionsOneOfThree(s: string, keywords: seq<string>)
    requires |keywords| == 3
    ensures MentionsAny(s, keywords) <==>
              Contains(s, keywords[0]) || Contains(s, keywords[1]) || Contains(s, keywords[2])
  {
    if Contains(s, keywords[0]) { assert Contains(s, keywords[0]); }
    if Contains(s, keywords[1]) { assert Contains(s, keywords[1]); }
    if Contains(s, keywords[2]) { assert Contains(s, keywords[2]); }
  }

  /** `getNodeType`: planning/strategy/policy variables are servers, then
      information/digital/tool variables are routers, everything else is a
      workstation. The server keywords take priority. */
  function NodeType(variable: string): (t: string)
    ensures t in {"server", "router", "workstation"}
    ensures t == "server" <==> MentionsAny(ToLower(variable), ServerKeywords)
    ensures t == "router" <==> !MentionsAny(ToLower(variable), ServerKeywords) && MentionsAny(ToLower(variable), RouterKeywords)
  {
    var lower := ToLower(variable);
    MentionsOneOfThree(lower, ServerKeywords);
    MentionsOneOfThree(lower, RouterKeywords);
    if Contains(lower, "planificación") || Contains(lower, "estratégica") || Contains(lower, "políticas") then "server"
    else if Contains(lower, "información") || Contains(lower, "digital") || Contains(lower, "herramientas") then "router"
    else "workstation"
  }

  /** A variable naming both a server and a router keyword is a server. */
  lemma ServerKeywordWins(variable: string, s: nat, r: nat)
    requires s < |ServerKeywords| && r < |RouterKeywords|
    requires Contains(ToLower(variable), ServerKeywords[s]) && Contains(ToLower(variable), RouterKeywords[r])
    ensures NodeType(variable) == "server"
  {
  }

  /** The sum of a row, left to right. */
  function Sum(s: seq<int>): int {
    if s == [] then 0 else Sum(s[..|s| - 1]) + s[|s| - 1]
  }

  /** `calculateInfluence`: the sum of row `i`, or 0 past the last row. */
  function Influence(matrix: seq<seq<int>>, i: nat): (r: int)
    ensures i >= |matrix| ==> r == 0
    ensures i < |matrix| && (forall k :: 0 <= k < |matrix[i]| ==> matrix[i][k] >= 0) ==> r >= 0
  {
    if i >= |matrix| then 0
    else
      SumNonNegative(matrix[i]);
      Sum(matrix[i])
  }

  /** A row of non-negative correlations has a non-negative sum. */
  lemma {:induction false} SumNonNegative(s: seq<int>)
    ensures (forall k :: 0 <= k < |s| ==> s[k] >= 0) ==> Sum(s) >= 0
  {
    if s != [] {
      SumNonNegative(s[..|s| - 1]);
    }
  }

  /** The sum of column `col` over the rows long enough to have it. */
  function ColumnSum(matrix: seq<seq<int>>, col: nat): int {
    if matrix == [] then 0
    else
      var last := matrix[|matrix| - 1];
      ColumnSum(matrix[..|matrix| - 1], col) + (if col < |last| then last[col] else 0)
  }

  /** `calculateDependence`: accumulate column `nodeIndex` row by row, skipping
      rows too short to have it. */
  method CalculateDependence(matrix: seq<seq<int>>, nodeIndex: nat) returns (sum: int)
    ensures sum == ColumnSum(matrix, nodeIndex)
  {
    sum := 0;
    var i := 0;
    while i < |matrix|
      invariant 0 <= i <= |matrix|
      invariant sum == ColumnSum(matrix[..i], nodeIndex)
    {
      if nodeIndex < |matrix[i]| {
        sum := sum + matrix[i][nodeIndex];
      }
      assert matrix[..i + 1][..i] == matrix[..i];
      i := i + 1;
    }
    assert matrix[..i] == matrix;
  }

  /** Total influence over the first `k` rows. */
  function TotalInfluence(matrix: seq<seq<int>>, k: nat): int {
    if k == 0 then 0 else TotalInfluence(matrix, k - 1) + Influence(matrix, k - 1)
  }

  /** Total dependence over the first `w` columns. */
  function TotalDependence(matrix: seq<seq<int>>, w: nat): int {
    if w == 0 then 0 else TotalDependence(matrix, w - 1) + ColumnSum(matrix, w - 1)
  }

  /** Influence and dependence count every cell once: summed over all rows and
      over all columns they give the same total. */
  lemma {:induction false} InfluenceDependenceBalance(matrix: seq<seq<int>>, w: nat)
    requires forall r :: 0 <= r < |matrix| ==> |matrix[r]| <= w
    ensures TotalInfluence(matrix, |matrix|) == TotalDependence(matrix, w)
  {
    if matrix == [] {
      ZeroDependence(matrix, w);
    } else {
      var init := matrix[..|matrix| - 1];
      var last := matrix[|matrix| - 1];
      InfluenceDependenceBalance(init, w);
      SameInfluence(init, matrix, |init|);
      DependenceAddRow(init, last, w);
      assert init + [last] == matrix;
      PaddedSum(last, w);
    }
  }

  lemma {:induction false} ZeroDependence(matrix: seq<seq<int>>, w: nat)
    requires matrix == []
    ensures TotalDependence(matrix, w) == 0
  {
    if w > 0 {
      ZeroDependence(matrix, w - 1);
    }
  }

  /** Rows below `k` have the same influence in a longer matrix. */
  lemma {:induction false} SameInfluence(init: seq<seq<int>>, matrix: seq<seq<int>>, k: nat)
    requires k <= |init| <= |matrix| && init == matrix[..|init|]
    ensures TotalInfluence(init, k) == TotalInfluence(matrix, k)
  {
    if k > 0 {
      SameInfluence(init, matrix, k - 1);
    }
  }

  /** The column sums of the first `w` columns of `row`, padded with 0. */
  function PaddedPrefixSum(row: seq<int>, w: nat): int {
    if w == 0 then 0 else PaddedPrefixSum(row, w - 1) + (if w - 1 < |row| then row[w - 1] else 0)
  }

  lemma {:induction false} DependenceAddRow(init: seq<seq<int>>, last: seq<int>, w: nat)
    ensures TotalDependence(init + [last], w) == TotalDependence(init, w) + PaddedPrefixSum(last, w)
  {
    assert (init + [last])[..|init|] == init;
    if w > 0 {
      DependenceAddRow(init, last, w - 1);
    }
  }

  lemma {:induction false} PaddedSum(row: seq<int>, w: nat)
    requires |row| <= w
    ensures PaddedPrefixSum(row, w) == Sum(row)
  {
    if w > |row| {
      PaddedSum(row, w - 1);
    } else if row != [] {
      PaddedSum(row[..|row| - 1], w - 1);
      PaddedPrefixAgree(row[..|row| - 1], row, w - 1);
    }
  }

  lemma {:induction false} PaddedPrefixAgree(short: seq<int>, row: seq<int>, w: nat)
    requires w <= |short| <= |row| && short == row[..|short|]
    ensures PaddedPrefixSum(short, w) == PaddedPrefixSum(row, w)
  {
    if w > 0 {
      PaddedPrefixAgree(short, row, w - 1);
    }
  }

  // ---------------------------------------------------------------------------
  // Links

  /** The minimum correlation that becomes a link. */
  const Threshold := 2

  /** A matrix cell that becomes a link. */
  datatype Entry = Entry(row: nat, col: nat, value: int)

  /** The node id of variable `i`: `var_` followed by its index. */
  function VarId(i: nat): string {
    "var_" + NatToString(i)
  }

  /** An id is `var_` followed by the canonical decimal digits of the index. */
  lemma VarIdShape(i: nat)
    ensures |VarId(i)| > 4 && VarId(i)[..4] == "var_"
    ensures forall k :: 4 <= k < |VarId(i)| ==> '0' <= VarId(i)[k] <= '9'
    ensures VarId(i)[4] == '0' ==> i == 0
  {
    assert VarId(i)[4..] == NatToString(i);
  }

  lemma VarIdInjective(a: nat, b: nat)
    requires VarId(a) == VarId(b)
    ensures a == b
  {
    assert VarId(a)[4..] == NatToString(a);
    assert VarId(b)[4..] == NatToString(b);
    NatToStringInjective(a, b);
  }

  /** The strong off-diagonal cells of row `i` among its first `j` columns, left to right. */
  function RowEntries(matrix: seq<seq<int>>, i: nat, j: nat): (es: seq<Entry>)
    requires i < |matrix| && j <= |matrix[i]|
  {
    if j == 0 then []
    else
      var prev := RowEntries(matrix, i, j - 1);
      if i != j - 1 && matrix[i][j - 1] >= Threshold then prev + [Entry(i, j - 1, matrix[i][j - 1])] else prev
  }

  /** The strong off-diagonal cells of the first `i` rows, row by row. */
  function StrongEntries(matrix: seq<seq<int>>, i: nat): (es: seq<Entry>)
    requires i <= |matrix|
  {
    if i == 0 then [] else StrongEntries(matrix, i - 1) + RowEntries(matrix, i - 1, |matrix[i - 1]|)
  }

  function LinkOf(e: Entry): Link {
    Link(VarId(e.row), VarId(e.col), Some(e.value))
  }

  /** The link of each cell, in order. */
  function LinksOf(es: seq<Entry>): (ls: seq<Link>)
  {
    seq(|es|, k requires 0 <= k < |es| => LinkOf(es[k]))
  }

  /** The links `generateMicmacData` emits for a correlation matrix. */
  function ThresholdLinks(matrix: seq<seq<int>>): seq<Link> {
    LinksOf(StrongEntries(matrix, |matrix|))
  }

  /** The nested loops of `generateMicmacData` that push the links. */
  method GenerateLinks(correlationMatrix: seq<seq<int>>) returns (links: seq<Link>)
    ensures links == ThresholdLinks(correlationMatrix)
  {
    links := [];
    var i := 0;
    while i < |correlationMatrix|
      invariant 0 <= i <= |correlationMatrix|
      invariant links == LinksOf(StrongEntries(correlationMatrix, i))
    {
      links := PushRowLinks(correlationMatrix, i, links);
      LinksOfConcat(StrongEntries(correlationMatrix, i), RowEntries(correlationMatrix, i, |correlationMatrix[i]|));
      i := i + 1;
    }
  }

  /** The inner loop of the link generation: push the links of row `i` onto `links0`. */
  method PushRowLinks(correlationMatrix: seq<seq<int>>, i: nat, links0: seq<Link>) returns (links: seq<Link>)
    requires i < |correlationMatrix|
    ensures links == links0 + LinksOf(RowEntries(correlationMatrix, i, |correlationMatrix[i]|))
  {
    links := links0;
    var j := 0;
    while j < |correlationMatrix[i]|
      invariant 0 <= j <= |correlationMatrix[i]|
      invariant links == links0 + LinksOf(RowEntries(correlationMatrix, i, j))
    {
      PushStep(correlationMatrix, i, j, links0, links);
      if i != j && correlationMatrix[i][j] >= Threshold {
        links := links + [Link(VarId(i), VarId(j), Some(correlationMatrix[i][j]))];
      }
      j := j + 1;
    }
  }

  /** One step of the inner loop: the links so far grow by the link of cell
      (i, j) exactly when that cell is off the diagonal and strong. */
  lemma PushStep(matrix: seq<seq<int>>, i: nat, j: nat, links0: seq<Link>, links: seq<Link>)
    requires i < |matrix| && j < |matrix[i]|
    requires links == links0 + LinksOf(RowEntries(matrix, i, j))
    ensures links0 + LinksOf(RowEntries(matrix, i, j + 1))
         == if i != j && matrix[i][j] >= Threshold
            then links + [Link(VarId(i), VarId(j), Some(matrix[i][j]))]
            else links
  {
    if i != j && matrix[i][j] >= Threshold {
      var e := Entry(i, j, matrix[i][j]);
      LinksOfAppend(RowEntries(matrix, i, j), e);
      AppendAssoc(links0, LinksOf(RowEntries(matrix, i, j)), LinkOf(e));
    }
  }

  lemma AppendAssoc<T>(a: seq<T>, b: seq<T>, x: T)
    ensures (a + b) + [x] == a + (b + [x])
  {
  }

  lemma LinksOfAppend(es: seq<Entry>, e: Entry)
    ensures LinksOf(es + [e]) == LinksOf(es) + [LinkOf(e)]
  {
    LinksOfConcat(es, [e]);
  }

  /** The links of two runs of cells are the links of the first, then of the second. */
  lemma LinksOfConcat(a: seq<Entry>, b: seq<Entry>)
    ensures LinksOf(a + b) == LinksOf(a) + LinksOf(b)
  {
    var l, r := LinksOf(a + b), LinksOf(a) + LinksOf(b);
    assert |l| == |r|;
    forall k | 0 <= k < |l| ensures l[k] == r[k] {
      if k < |a| {
        assert (a + b)[k] == a[k];
      } else {
        assert (a + b)[k] == b[k - |a|];
      }
    }
  }

  /** A cell is a strong entry of the first `j` columns of its row exactly when
      it is off the diagonal and at or above the threshold. */
  lemma {:induction false} RowEntriesIff(matrix: seq<seq<int>>, i: nat, j: nat, e: Entry)
    requires i < |matrix| && j <= |matrix[i]|
    ensures e in RowEntries(matrix, i, j) <==>
              e.row == i && e.col < j && e.row != e.col && matrix[i][e.col] >= Threshold && e.value == matrix[i][e.col]
  {
    if j > 0 {
      RowEntriesIff(matrix, i, j - 1, e);
    }
  }

  lemma {:induction false} StrongEntriesIff(matrix: seq<seq<int>>, i: nat, e: Entry)
    requires i <= |matrix|
    ensures e in StrongEntries(matrix, i) <==>
              e.row < i && e.col < |matrix[e.row]| && e.row != e.col &&
              matrix[e.row][e.col] >= Threshold && e.value == matrix[e.row][e.col]
  {
    if i > 0 {
      StrongEntriesIff(matrix, i - 1, e);
      RowEntriesIff(matrix, i - 1, |matrix[i - 1]|, e);
    }
  }

  /** The link `var_i -> var_j` carrying value v is emitted exactly when i != j
      and cell (i, j) exists, is at least the threshold and equals v. */
  lemma LinkEmittedIff(matrix: seq<seq<int>>, i: nat, j: nat, v: int)
    ensures Link(VarId(i), VarId(j), Some(v)) in ThresholdLinks(matrix) <==>
              i < |matrix| && j < |matrix[i]| && i != j && matrix[i][j] >= Threshold && v == matrix[i][j]
  {
    var es := StrongEntries(matrix, |matrix|);
    var ls := ThresholdLinks(matrix);
    if Link(VarId(i), VarId(j), Some(v)) in ls {
      var k :| 0 <= k < |ls| && ls[k] == Link(VarId(i), VarId(j), Some(v));
      VarIdInjective(es[k].row, i);
      VarIdInjective(es[k].col, j);
      assert es[k] == Entry(i, j, v);
      StrongEntriesIff(matrix, |matrix|, es[k]);
    }
    StrongEntriesIff(matrix, |matrix|, Entry(i, j, v));
    if Entry(i, j, v) in es {
      var k :| 0 <= k < |es| && es[k] == Entry(i, j, v);
      assert ls[k] == Link(VarId(i), VarId(j), Some(v));
    }
  }

  /** No emitted link is a self-loop. */
  lemma NoSelfLoops(matrix: seq<seq<int>>, l: Link)
    requires l in ThresholdLinks(matrix)
    ensures l.source != l.target
  {
    var es := StrongEntries(matrix, |matrix|);
    var k :| 0 <= k < |es| && ThresholdLinks(matrix)[k] == l;
    StrongEntriesIff(matrix, |matrix|, es[k]);
    if l.source == l.target {
      VarIdInjective(es[k].row, es[k].col);
    }
  }

  /** A symmetric pair of strong cells gives a link in each direction. */
  lemma SymmetricPairBothDirections(matrix: seq<seq<int>>, i: nat, j: nat)
    requires i != j && i < |matrix| && j < |matrix| && j < |matrix[i]| && i < |matrix[j]|
    requires matrix[i][j] >= Threshold && matrix[j][i] >= Threshold
    ensures Link(VarId(i), VarId(j), Some(matrix[i][j])) in ThresholdLinks(matrix)
    ensures Link(VarId(j), VarId(i), Some(matrix[j][i])) in ThresholdLinks(matrix)
  {
    LinkEmittedIff(matrix, i, j, matrix[i][j]);
    LinkEmittedIff(matrix, j, i, matrix[j][i]);
  }

  /** `(row, col)` of `a` comes strictly before that of `b` in row-major order. */
  predicate RowMajorBefore(a: Entry, b: Entry) {
    a.row < b.row || (a.row == b.row && a.col < b.col)
  }

  /** Links come out in row-major order of their cells. */
  lemma {:induction false} StrongEntriesOrdered(matrix: seq<seq<int>>, i: nat)
    requires i <= |matrix|
    ensures forall a, b :: 0 <= a < b < |StrongEntries(matrix, i)| ==>
              RowMajorBefore(StrongEntries(matrix, i)[a], StrongEntries(matrix, i)[b])
  {
    if i > 0 {
      StrongEntriesOrdered(matrix, i - 1);
      var prev := StrongEntries(matrix, i - 1);
      var row := RowEntries(matrix, i - 1, |matrix[i - 1]|);
      RowEntriesOrdered(matrix, i - 1, |matrix[i - 1]|);
      forall a | 0 <= a < |prev| ensures prev[a].row < i - 1 {
        StrongEntriesIff(matrix, i - 1, prev[a]);
      }
      forall b | 0 <= b < |row| ensures row[b].row == i - 1 {
        RowEntriesIff(matrix, i - 1, |matrix[i - 1]|, row[b]);
      }
    }
  }

  lemma {:induction false} RowEntriesOrdered(matrix: seq<seq<int>>, i: nat, j: nat)
    requires i < |matrix| && j <= |matrix[i]|
    ensures forall a, b :: 0 <= a < b < |RowEntries(matrix, i, j)| ==>
              RowMajorBefore(RowEntries(matrix, i, j)[a], RowEntries(matrix, i, j)[b])
  {
    if j > 0 {
      RowEntriesOrdered(matrix, i, j - 1);
      var prev := RowEntries(matrix, i, j - 1);
      forall a | 0 <= a < |prev| ensures prev[a].row == i && prev[a].col < j - 1 {
        RowEntriesIff(matrix, i, j - 1, prev[a]);
      }
    }
  }

  /** With threshold 2, the matrix [[0,3,1],[3,0,0],[1,0,0]] gives the two
      directed links between variables 0 and 1 and nothing else. */
  lemma ThresholdExample()
    ensures ThresholdLinks([[0, 3, 1], [3, 0, 0], [1, 0, 0]])
         == [Link("var_0", "var_1", Some(3)), Link("var_1", "var_0", Some(3))]
  {
    var m := [[0, 3, 1], [3, 0, 0], [1, 0, 0]];
    var e01, e10 := Entry(0, 1, 3), Entry(1, 0, 3);
    ThresholdExampleEntries();
    assert VarId(0) == "var_0" && VarId(1) == "var_1";
    LinksOfAppend([], e01);
    LinksOfAppend([e01], e10);
    assert [e01] + [e10] == [e01, e10];
  }

  /** The strong cells of the example matrix: (0, 1) and (1, 0). */
  lemma ThresholdExampleEntries()
    ensures StrongEntries([[0, 3, 1], [3, 0, 0], [1, 0, 0]], 3) == [Entry(0, 1, 3), Entry(1, 0, 3)]
  {
    var m := [[0, 3, 1], [3, 0, 0], [1, 0, 0]];
    assert RowEntries(m, 0, 1) == [];
    assert RowEntries(m, 0, 2) == [Entry(0, 1, 3)];
    assert RowEntries(m, 0, 3) == [Entry(0, 1, 3)];
    assert RowEntries(m, 1, 1) == [Entry(1, 0, 3)];
    assert RowEntries(m, 1, 3) == [Entry(1, 0, 3)];
    assert RowEntries(m, 2, 1) == [];
    assert RowEntries(m, 2, 3) == [];
    assert StrongEntries(m, 1) == [Entry(0, 1, 3)];
    assert StrongEntries(m, 2) == [Entry(0, 1, 3), Entry(1, 0, 3)];
  }

  // ---------------------------------------------------------------------------
  // Nodes and the assembled data

  /** What the loader returns. */
  datatype MicmacData = MicmacData(
    nodes: seq<Node>,
    links: seq<Link>,
    variables: seq<string>,
    correlationMatrix: seq<seq<int>>)

  /** The node of variable `i`. Its position comes from `layout`, standing for
      the circular placement. */
  function MicmacNode(variables: seq<string>, matrix: seq<seq<int>>, layout: nat -> (real, real), i: nat): Node
    requires i < |variables|
  {
    Node(VarId(i), variables[i], Some(layout(i).0), Some(layout(i).1), Some(NodeType(variables[i])),
         None, Some(Influence(matrix, i)), Some(ColumnSum(matrix, i)), None, None)
  }

  /** One node per variable, in variable order. */
  function MicmacNodes(variables: seq<string>, matrix: seq<seq<int>>, layout: nat -> (real, real)): (nodes: seq<Node>)
    ensures |nodes| == |variables|
    ensures forall i :: 0 <= i < |variables| ==>
              nodes[i].id == VarId(i) && nodes[i].name == variables[i] &&
              nodes[i].nodeType == Some(NodeType(variables[i])) &&
              nodes[i].influence == Some(Influence(matrix, i)) &&
              nodes[i].dependence == Some(ColumnSum(matrix, i))
    ensures forall i :: 0 <= i < |variables| ==>
              nodes[i].x == Some(layout(i).0) && nodes[i].y == Some(layout(i).1) &&
              nodes[i].group.None? && nodes[i].fx.None? && nodes[i].fy.None?
  {
    seq(|variables|, i requires 0 <= i < |variables| => MicmacNode(variables, matrix, layout, i))
  }

  /** What `generateMicmacData` returns. */
  function MicmacDataOf(variables: seq<string>, matrix: seq<seq<int>>, layout: nat -> (real, real)): MicmacData {
    MicmacData(MicmacNodes(variables, matrix, layout), ThresholdLinks(matrix), variables, matrix)
  }

  /** `generateMicmacData`: build the nodes, then push the links. */
  method GenerateMicmacData(variables: seq<string>, correlationMatrix: seq<seq<int>>, layout: nat -> (real, real))
    returns (data: MicmacData)
    ensures data == MicmacDataOf(variables, correlationMatrix, layout)
  {
    var nodes := MicmacNodes(variables, correlationMatrix, layout);
    var links := GenerateLinks(correlationMatrix);
    data := MicmacData(nodes, links, variables, correlationMatrix);
  }

  /** The sheet branch of `loadMicmacData`: parse the sheet, then build the data. */
  method LoadFromSheet(grid: Grid, layout: nat -> (real, real)) returns (data: MicmacData)
    ensures data == MicmacDataOf(Variables(grid), CorrelationMatrix(grid), layout)
  {
    var variables, correlationMatrix := ParseSheet(grid);
    data := GenerateMicmacData(variables, correlationMatrix, layout);
  }
}

=== FILE: network.dfy ===
/** The records shared by the graph view and the MICMAC loader (src/types/network.ts). */
module Network {

  import opened Options

  /** A graph vertex. Coordinates are optional because the graph view fills in
      defaults with `??` when they are absent. */
  datatype Node = Node(
    id: string,
    name: string,
    x: Option<real>,
    y: Option<real>,
    nodeType: Option<string>,
    group: Option<string>,
    influence: Option<int>,
    dependence: Option<int>,
    fx: Option<real>,
    fy: Option<real>)

  /** A directed link between two node ids; the MICMAC loader also records the
      correlation value that produced it. */
  datatype Link = Link(source: string, target: string, value: Option<int>)

  /** The adjacency matrix shown by the graph view, with the row/column labels. */
  datatype AdjacencyMatrix = AdjacencyMatrix(matrix: seq<seq<int>>, nodeNames: seq<string>)
}

=== FILE: network_graph.dfy ===
/** The data kernel of the graph view (src/components/NetworkGraph.tsx): the
    directed 0/1 adjacency matrix, the node colour and the coordinate defaults. */
module NetworkGraph {

  import opened Options
  import opened Network

  /** `nodes.findIndex(node => node.id === id)`: the first position holding `id`, or -1. */
  function FindIndex(nodes: seq<Node>, id: string): (r: int)
    ensures -1 <= r < |nodes|
    ensures r == -1 <==> forall k :: 0 <= k < |nodes| ==> nodes[k].id != id
    ensures r != -1 ==> nodes[r].id == id && forall k :: 0 <= k < r ==> nodes[k].id != id
  {
    if nodes == [] then -1
    else if nodes[0].id == id then 0
    else var r := FindIndex(nodes[1..], id); if r == -1 then -1 else r + 1
  }

  /** Some link's source resolves to position `i` and its target to position `j`. */
  predicate Linked(nodes: seq<Node>, links: seq<Link>, i: int, j: int) {
    exists l :: l in links && FindIndex(nodes, l.source) == i && FindIndex(nodes, l.target) == j
  }

  /** What the graph view's adjacency matrix is: an n-by-n matrix over the node
      order, holding 1 exactly where a link resolves, and the node names. */
  function AdjacencyOf(nodes: seq<Node>, links: seq<Link>): (r: AdjacencyMatrix)
    ensures |r.matrix| == |nodes| && |r.nodeNames| == |nodes|
    ensures forall i :: 0 <= i < |nodes| ==> |r.matrix[i]| == |nodes| && r.nodeNames[i] == nodes[i].name
    ensures forall i, j :: 0 <= i < |nodes| && 0 <= j < |nodes| ==> r.matrix[i][j] == 0 || r.matrix[i][j] == 1
  {
    var n := |nodes|;
    AdjacencyMatrix(
      seq(n, i requires 0 <= i < n => seq(n, j requires 0 <= j < n => if Linked(nodes, links, i, j) then 1 else 0)),
      seq(n, i requires 0 <= i < n => nodes[i].name))
  }

  /** `generateAdjacencyMatrix`: allocate an n-by-n zero matrix, then for each
      link whose two ids are both found set the (source, target) cell to 1. The
      mirrored cell is left alone, so the matrix is directed. */
  method GenerateAdjacencyMatrix(nodes: seq<Node>, links: seq<Link>) returns (r: AdjacencyMatrix)
    ensures r == AdjacencyOf(nodes, links)
  {
    var n := |nodes|;
    var nodeNames := seq(n, i requires 0 <= i < n => nodes[i].name);
    var matrix := new int[n, n]((i, j) => 0);
    var k := 0;
    while k < |links|
      invariant 0 <= k <= |links|
      invariant forall i, j :: 0 <= i < n && 0 <= j < n ==>
                  matrix[i, j] == if Linked(nodes, links[..k], i, j) then 1 else 0
    {
      var link := links[k];
      var sourceIndex := FindIndex(nodes, link.source);
      var targetIndex := FindIndex(nodes, link.target);
      if sourceIndex != -1 && targetIndex != -1 {
        matrix[sourceIndex, targetIndex] := 1;
      }
      assert links[..k + 1] == links[..k] + [link];
      k := k + 1;
    }
    assert links[..k] == links;
    var rows := seq(n, i requires 0 <= i < n reads matrix =>
                  seq(n, j requires 0 <= j < n reads matrix => matrix[i, j]));
    r := AdjacencyMatrix(rows, nodeNames);
    forall i | 0 <= i < n ensures rows[i] == AdjacencyOf(nodes, links).matrix[i] {
    }
  }

  /** Two adjacency matrices agree when their names and every cell's link condition agree. */
  lemma SameCellsSameMatrix(nodes1: seq<Node>, links1: seq<Link>, nodes2: seq<Node>, links2: seq<Link>)
    requires |nodes1| == |nodes2|
    requires forall i :: 0 <= i < |nodes1| ==> nodes1[i].name == nodes2[i].name
    requires forall i, j :: 0 <= i < |nodes1| && 0 <= j < |nodes1| ==>
               Linked(nodes1, links1, i, j) == Linked(nodes2, links2, i, j)
    ensures AdjacencyOf(nodes1, links1) == AdjacencyOf(nodes2, links2)
  {
    var a, b := AdjacencyOf(nodes1, links1), AdjacencyOf(nodes2, links2);
    forall i | 0 <= i < |nodes1| ensures a.matrix[i] == b.matrix[i] {
    }
  }

  /** No two nodes share an id. */
  predicate UniqueIds(nodes: seq<Node>) {
    forall a, b :: 0 <= a < b < |nodes| ==> nodes[a].id != nodes[b].id
  }

  /** With unique ids, looking up a node's own id finds that node. */
  lemma FindIndexOwnId(nodes: seq<Node>, i: int)
    requires UniqueIds(nodes) && 0 <= i < |nodes|
    ensures FindIndex(nodes, nodes[i].id) == i
  {
  }

  /** With unique ids, a cell is 1 exactly when a link between the two nodes'
      ids is supplied; a diagonal cell is 1 exactly when a self-loop is supplied. */
  lemma CellIffLink(nodes: seq<Node>, links: seq<Link>, i: int, j: int)
    requires UniqueIds(nodes) && 0 <= i < |nodes| && 0 <= j < |nodes|
    ensures AdjacencyOf(nodes, links).matrix[i][j] == 1
        <==> exists l :: l in links && l.source == nodes[i].id && l.target == nodes[j].id
  {
    FindIndexOwnId(nodes, i);
    FindIndexOwnId(nodes, j);
    if exists l :: l in links && l.source == nodes[i].id && l.target == nodes[j].id {
      var l :| l in links && l.source == nodes[i].id && l.target == nodes[j].id;
      assert Linked(nodes, links, i, j);
    }
  }

  /** A link naming an id that no node has changes nothing. */
  lemma UnknownLinkIgnored(nodes: seq<Node>, links: seq<Link>, extra: Link)
    requires FindIndex(nodes, extra.source) == -1 || FindIndex(nodes, extra.target) == -1
    ensures AdjacencyOf(nodes, links + [extra]) == AdjacencyOf(nodes, links)
  {
    var n := |nodes|;
    forall i, j | 0 <= i < n && 0 <= j < n
      ensures Linked(nodes, links + [extra], i, j) == Linked(nodes, links, i, j)
    {
      if Linked(nodes, links + [extra], i, j) {
        var l :| l in links + [extra] && FindIndex(nodes, l.source) == i && FindIndex(nodes, l.target) == j;
        assert l in links;
      }
      if Linked(nodes, links, i, j) {
        var l :| l in links && FindIndex(nodes, l.source) == i && FindIndex(nodes, l.target) == j;
        assert l in links + [extra];
      }
    }
    SameCellsSameMatrix(nodes, links + [extra], nodes, links);
  }

  /** The matrix depends only on which links occur: reordering or repeating
      links gives the same matrix. */
  lemma SameLinksSameMatrix(nodes: seq<Node>, links1: seq<Link>, links2: seq<Link>)
    requires forall l :: l in links1 <==> l in links2
    ensures AdjacencyOf(nodes, links1) == AdjacencyOf(nodes, links2)
  {
    var n := |nodes|;
    forall i, j | 0 <= i < n && 0 <= j < n
      ensures Linked(nodes, links1, i, j) == Linked(nodes, links2, i, j)
    {
    }
    SameCellsSameMatrix(nodes, links1, nodes, links2);
  }

  /** Directed semantics: a lone link between two different known nodes sets
      its own cell and leaves the mirrored cell at 0. */
  lemma LoneLinkDirected(nodes: seq<Node>, link: Link)
    requires FindIndex(nodes, link.source) != -1 && FindIndex(nodes, link.target) != -1
    requires FindIndex(nodes, link.source) != FindIndex(nodes, link.target)
    ensures var s, t := FindIndex(nodes, link.source), FindIndex(nodes, link.target);
            AdjacencyOf(nodes, [link]).matrix[s][t] == 1 && AdjacencyOf(nodes, [link]).matrix[t][s] == 0
  {
    var s, t := FindIndex(nodes, link.source), FindIndex(nodes, link.target);
    assert Linked(nodes, [link], s, t);
  }

  /** `getNodeColor`: the fill class for a node type; any other or missing type is gray. */
  function NodeColor(nodeType: Option<string>): (c: string)
    ensures c == "fill-blue-500" <==> nodeType == Some("server")
    ensures c == "fill-green-500" <==> nodeType == Some("workstation")
    ensures c == "fill-red-500" <==> nodeType == Some("router")
    ensures c == "fill-gray-500" <==> nodeType !in {Some("server"), Some("workstation"), Some("router")}
  {
    match nodeType
    case Some("server") => "fill-blue-500"
    case Some("workstation") => "fill-green-500"
    case Some("router") => "fill-red-500"
    case _ => "fill-gray-500"
  }

  /** `processedNodes`: every node keeps its fields, and an absent x (y) is
      replaced by the default for its position. The default coordinates are
      parameters: `defaultX(i)` for node i and `defaultY` for all nodes. */
  function ProcessNodes(nodes: seq<Node>, defaultX: nat -> real, defaultY: real): (r: seq<Node>)
    ensures |r| == |nodes|
    ensures forall i :: 0 <= i < |nodes| ==>
              r[i].id == nodes[i].id && r[i].name == nodes[i].name && r[i].nodeType == nodes[i].nodeType &&
              r[i] == nodes[i].(x := r[i].x, y := r[i].y)
    ensures forall i :: 0 <= i < |nodes| ==>
              r[i].x == (if nodes[i].x.Some? then nodes[i].x else Some(defaultX(i))) &&
              r[i].y == (if nodes[i].y.Some? then nodes[i].y else Some(defaultY))
  {
    seq(|nodes|, i requires 0 <= i < |nodes| =>
      nodes[i].(x := Some(if nodes[i].x.Some? then nodes[i].x.value else defaultX(i)),
                y := Some(if nodes[i].y.Some? then nodes[i].y.value else defaultY)))
  }

  /** Once processed, every node has coordinates, so processing again changes nothing. */
  lemma ProcessNodesIdempotent(nodes: seq<Node>, defaultX: nat -> real, defaultY: real)
    ensures ProcessNodes(ProcessNodes(nodes, defaultX, defaultY), defaultX, defaultY)
         == ProcessNodes(nodes, defaultX, defaultY)
  {
  }

  /** Processing does not move ids or names, so the adjacency matrix of the
      processed nodes would be the same as that of the raw nodes (the view
      builds it from the raw nodes). */
  lemma ProcessNodesKeepsMatrix(nodes: seq<Node>, links: seq<Link>, defaultX: nat -> real, defaultY: real)
    ensures AdjacencyOf(ProcessNodes(nodes, defaultX, defaultY), links) == AdjacencyOf(nodes, links)
  {
    var processed := ProcessNodes(nodes, defaultX, defaultY);
    forall id { FindIndexSameIds(processed, nodes, id); }
    forall i, j | 0 <= i < |nodes| && 0 <= j < |nodes|
      ensures Linked(processed, links, i, j) == Linked(nodes, links, i, j)
    {
    }
    SameCellsSameMatrix(processed, links, nodes, links);
  }

  /** `findIndex` looks only at ids. */
  lemma {:induction false} FindIndexSameIds(nodes1: seq<Node>, nodes2: seq<Node>, id: string)
    requires |nodes1| == |nodes2| && forall k :: 0 <= k < |nodes1| ==> nodes1[k].id == nodes2[k].id
    ensures FindIndex(nodes1, id) == FindIndex(nodes2, id)
  {
    if nodes1 != [] {
      FindIndexSameIds(nodes1[1..], nodes2[1..], id);
    }
  }
}

=== FILE: option.dfy ===
/** The optional value used for absent fields and failed parses. */
module Options {

  datatype Option<+T> = None | Some(value: T)
}
